=== FILE: README.md ===
# Keyset pagination for ListXXX queries — a Dafny model

This project models the `list` package of the pipelines API server
(`backend/src/apiserver/list/list.go`). The package turns a list request
into the options of one query and produces the continuation token for the
following page:

- **page size policy**: a negative size is rejected, 0 becomes the default
  of 20, anything above 200 is clamped to 200;
- **sort specification**: `"field"`, `"field asc"` or `"field desc"`,
  case-insensitive and split on white space, resolved through the listed
  model's API-to-model field map; the primary key is always the tie-break;
- **continuation token**: sort field name and value, key field name and
  value, direction and filter, carried as base64-encoded JSON;
- **query contribution** (`AddToSelect`): a cursor predicate on continuation
  pages, `ORDER BY sort, key` in one direction, `LIMIT pageSize + 1` (the
  extra row is the lookahead that becomes the first row of the next page),
  then the filter;
- **next-token derivation**: the sort and key values read off the record
  the next page starts with.

Files and modules:

| file | module | contents |
|---|---|---|
| `wrappers.dfy` | `Wrappers`, `Errors` | `Option`, `Result`; the error kinds `InvalidInput`, `Internal`, `Plain` |
| `text.dfy` | `Text` | Go's `strings.ToLower` and `strings.Fields`, with their round-trip lemmas |
| `values.dfy` | `Values` | column values and the store's strict total order on them |
| `query.dfy` | `Query`, `Filters` | the abstract SELECT builder, the meaning of its predicates and ORDER BY over rows; the opaque filter collaborator |
| `list.dfy` | `List` | the operations of `list.go` |
| `list_properties.dfy` | `ListProperties` | lemmas relating the operations to each other and to reference definitions |

The SELECT builder is an immutable value holding the WHERE conjuncts, the
ORDER BY clauses, the limit and whether a filter was applied. Predicates
have a meaning over rows (`Query.Holds`), and ORDER BY clauses define when
one row precedes another (`Query.Precedes`). So the central claims are
stated semantically. The cursor predicate is lexicographic comparison on
(sort value, key value). A continuation built from a record admits exactly
the rows that the query's ordering does not place before that record,
including the record itself.

Error kinds and the key comparison, as the code has them:

- An empty page token fails with an unclassified `fmt.Errorf` error,
  modelled as `Plain`. So does a record missing the sort field or the
  primary key.
- Comparisons on the key column are inclusive (`>=` / `<=`). The token
  points at the lookahead row, which is the first row of the next page
  (list.go lines 33-38 and 201-203).
  `ListProperties.CursorAdmitsRecord` proves that this row is admitted.

## Model

| member | source | states |
|---|---|---|
| `List.ValidatePageSize` | backend/src/apiserver/list/list.go:235-255 | fails with InvalidInput exactly for negative sizes; 0 gives 20; sizes over 200 give 200; 1..200 are kept; every success lies in [1, 200] |
| `ListProperties.ValidatePageSizeIdempotent` | backend/src/apiserver/list/list.go:240-255 | normalising an already normalised page size changes nothing |
| `Text.Fields` | backend/src/apiserver/list/list.go:120 | every word of the split is non-empty and free of white space (Go's `unicode.IsSpace` set) |
| `Text.FieldsOfInterleave` | backend/src/apiserver/list/list.go:120 | words separated by any non-empty runs of white space, with optional white space before and after, split back into exactly those words |
| `Text.ToLower` | backend/src/apiserver/list/list.go:120 | lower-casing keeps the length, turns each ASCII capital into its own lower-case letter, changes no other character, and keeps every white-space position |
| `List.SortWords` | backend/src/apiserver/list/list.go:120 | the words of a sort spec are as many as its white-space-separated words, each the lower-cased original word, each non-empty and space-free |
| `List.ValidSortFormat` | backend/src/apiserver/list/list.go:122 | a word list is accepted iff it has at most one word, or exactly two with "asc" or "desc" second |
| `Text.ConcatFields` | backend/src/apiserver/list/list.go:120 | the split drops exactly the white space: its words concatenated are the non-space characters of the input |
| `Text.FieldsOfLower` | backend/src/apiserver/list/list.go:119-120 | lower-casing moves no word boundary: the words of the lower-cased string are the lower-cased words |
| `List.NewOptions` | backend/src/apiserver/list/list.go:111-151 | succeeds iff the page size is non-negative, the spec has at most two words with a second word of asc/desc, the first word is a mapped API field and the filter compiles; a page-size or spec error is InvalidInput; when page size and spec are valid, a filter-compile error comes back unchanged, and every non-InvalidInput error is the compiler's; on success: normalised page size, no cursor values, key field = primary key, sort field = mapped first word or the default, descending iff the second word is "desc", filter present iff one was given and equal to its compilation |
| `List.CompileFilter` | backend/src/apiserver/list/list.go:141-148 | no filter gives no filter; otherwise the compiler's error propagates unchanged or its result is kept |
| `ListProperties.SortSpecAccepted` | backend/src/apiserver/list/list.go:119-139 | for a known lower-case API field f, "f" and "f asc" sort ascending and "f desc" descending by the mapped model field, keyed by the primary key |
| `ListProperties.SortSpecSpaced` | backend/src/apiserver/list/list.go:119-139 | a field word and a direction word laid out with any white space and in any letter case sort by the mapped lower-cased field, descending iff the lower-cased direction is "desc" |
| `ListProperties.SortSpecDefault` | backend/src/apiserver/list/list.go:127-139 | a blank sort spec sorts by the default sort field, ascending |
| `ListProperties.SortSpecRejected` | backend/src/apiserver/list/list.go:119-125 | more than two words, or a second word that is not asc/desc in any letter case, is InvalidInput |
| `ListProperties.SortFieldUnknown` | backend/src/apiserver/list/list.go:128-133 | a first word whose lower-case form is not an API field name is InvalidInput |
| `ListProperties.SortSpecIgnoresCase` | backend/src/apiserver/list/list.go:119-120 | two sort specs that differ only in the case of ASCII letters (`SameIgnoringCase` position by position) give the same options or the same error |
| `ListProperties.SortSpecCaseInsensitive` | backend/src/apiserver/list/list.go:119-120 | lower-casing the sort spec beforehand does not change the resulting options or error |
| `List.Unmarshal` | backend/src/apiserver/list/list.go:56-70 | succeeds iff base64 and then JSON decoding both succeed, returning the decoded token; every failure is InvalidInput |
| `List.Marshal` | backend/src/apiserver/list/list.go:72-78 | fails, with Internal, iff JSON encoding fails; otherwise yields the base64 text of the JSON |
| `ListProperties.MarshalRoundTrip` | backend/src/apiserver/list/list.go:56-78 | if the JSON and base64 libraries reproduce a token, unmarshalling its marshalled text gives the same token back, and the text is non-empty |
| `List.NewOptionsFromToken` | backend/src/apiserver/list/list.go:92-106 | an empty token fails with Plain; otherwise a negative page size fails with InvalidInput; succeeds iff the token is non-empty, the size non-negative and the token decodes; the result has the normalised page size and exactly the decoded token (sort field, values, key, direction, filter) |
| `List.AddToSelect` | backend/src/apiserver/list/list.go:156-186 | appends the cursor predicate only when both cursor values are present, then the filter's predicates; appends ORDER BY sort field then key field in the same direction; the limit is page size + 1 as a uint64 (exactly page size + 1 for sizes in 0..200); the query is marked filtered iff a filter is present or it already was |
| `List.CursorPredicate` | backend/src/apiserver/list/list.go:159-167 | a row lacking the sort column never passes; a row whose sort and key values equal the cursor's always passes |
| `ListProperties.CursorPredicateIsLexOrder` | backend/src/apiserver/list/list.go:158-168 | the OR/AND cursor predicate admits a row iff its (sort, key) pair is lexicographically at or after the cursor pair (ascending), or at or before it (descending) |
| `ListProperties.OrderingIsLexOrder` | backend/src/apiserver/list/list.go:170-176 | the two ORDER BY clauses order rows lexicographically by (sort value, key value), reversed when descending |
| `ListProperties.OrderingIsTotalOnKeys` | backend/src/apiserver/list/list.go:170-176 | two rows with different keys are ordered one way round and not the other |
| `ListProperties.CursorResumesAtRecord` | backend/src/apiserver/list/list.go:158-176 | a cursor taken from a record admits exactly the rows that the query's ORDER BY does not place before that record |
| `ListProperties.CursorAdmitsRecord` | backend/src/apiserver/list/list.go:158-167 | the record a cursor was taken from passes the cursor predicate (the inclusive key comparison keeps the first row of the next page) |
| `ListProperties.AddToSelectAdmits` | backend/src/apiserver/list/list.go:156-186 | a row passes the built query iff it passed the original one, lies at or after the cursor on continuation pages, and satisfies the filter |
| `ListProperties.FirstPageHasNoCursor` | backend/src/apiserver/list/list.go:158-168 | options built from fresh criteria carry no cursor values, so their query gains no cursor predicate, only the filter's predicates |
| `ListProperties.LookaheadLimit` | backend/src/apiserver/list/list.go:178-179 | for options returned by either constructor the limit is exactly one past the normalised requested page size |
| `List.NextToken` | backend/src/apiserver/list/list.go:212-233 | succeeds iff the record has both the sort field and the primary key, and otherwise fails with Plain; the token keeps the sort field name and direction, takes the primary key as key name and the record's two values as cursor values, and has no filter |
| `List.NextPageToken` | backend/src/apiserver/list/list.go:204-210 | a missing field fails with Plain, a serialisation failure with Internal; on success the text is the marshalled derived token |
| `List.NextTokenKeepingFilter` | backend/src/apiserver/list/list.go:212-233 | as `List.NextToken`, but the derived token carries the options' filter |
| `List.NextPageTokenKeepingFilter` | backend/src/apiserver/list/list.go:204-210 | `List.NextPageToken` over the derivation that keeps the filter |
| `ListProperties.ResumeAtRecord` | backend/src/apiserver/list/list.go:201-233 | if the wire libraries reproduce the token, the options rebuilt from the next-page text keep the direction and filter; their query orders by (sort field, primary key) and admits exactly the filtered rows not ordered before the record, including the record itself when it passes the filter |
| `ListProperties.NextTokenDropsFilter` | backend/src/apiserver/list/list.go:226-232 | as written, the derived token loses the filter: a row that the filtered first-page query rejects passes the continuation query |

## Findings

| source | as written | input that shows it | evidently intended | confidence | as-written member | corrected member |
|---|---|---|---|---|---|---|
| backend/src/apiserver/list/list.go:226-232 | `nextPageToken` builds the token without `Filter`. Later pages are then queried unfiltered, because `NewOptionsFromToken` takes the filter only from the token. | options filtered on `Name = "a"` ascending by `Name`, key `UUID`; lookahead record `{Name: "a", UUID: 1}`; row `{Name: "b", UUID: 2}` is rejected on the first page but admitted by the continuation query | carry `o.Filter` into the token, as the doc comment at lines 201-203 promises ("using the same listing options in o") | likely; not executed | `ListProperties.NextTokenDropsFilter` | `List.NextTokenKeepingFilter` |

The corrected derivation is the one the end-to-end lemma
`ListProperties.ResumeAtRecord` is stated about. `List.NextToken` and
`List.NextPageToken` stay as written.

## Left out

- JSON and base64 (`encoding/json`, `encoding/base64`) are library calls. They are modelled as the fields of `List.Codec`, passed in as parameters: three fallible functions (base64 decoding, JSON decoding, JSON encoding) and a total base64 encoder.
- ListProperties.MarshalRoundTrip: the round trip holds only under the hypothesis `ListProperties.Transports`. Go's real codec does not meet that hypothesis for integer values: JSON numbers decoded into `interface{}` come back as float64, so the scalar type is not preserved, and integers beyond 2^53 also lose precision.
- ListProperties.ResumeAtRecord: stated under the same `Transports` hypothesis, for the reason above.
- Go reflection in `nextPageToken` is replaced by a lookup in the record, modelled as a map from field name to value. A field holding a nil pointer would become a nil cursor value and silently turn the continuation into a first-page query; this is not modelled, because `Values.Value` has no null. Neither are JSON arrays and objects in a hand-made token, which decode as cursor values that `Values.Value` cannot represent (squirrel would render `sq.Eq` on a slice as `IN (...)`).
- Text.ToLower: only the ASCII letters A-Z are lower-cased; Unicode case mapping of other letters is not modelled.
- Text.FieldsOfLower: `strings.ToLower` is modelled for ASCII letters only. Unicode case mapping is a large table. No Unicode lower-casing turns a space into a non-space or back, so word boundaries behave the same.
- List.NewOptions: the field lookup diverges for non-ASCII letters. Go lower-cases U+0130 to `i` and U+212A (Kelvin sign) to `k`, so for an API field `id` Go accepts the sort spec "İD", while `List.NewOptions` and `ListProperties.SortFieldUnknown` report InvalidInput.
- The filter package (`filter.NewWithKeyMap`, `Filter.AddToSelect`) and the `api.Filter` proto are external. Compilation is a caller-supplied `Filters.Compiler` whose errors propagate. A compiled filter only adds its predicates, so applying it after the ordering and the limit cannot be told apart from applying it earlier.
- The squirrel builder and SQL rendering are left out: only the abstract clause list is modelled. A comparison on a column a row lacks counts as false, like SQL NULL.
- Values cover integers, strings and booleans. Floats and timestamps are not modelled. Strings are compared by code point; database collations are not modelled.
- Error messages and the `util` error constructors are left out: only the error kind is kept.
- Running the query, and the caller's use of the lookahead row, happen outside `list.go` and are not modelled.

=== FILE: list.dfy ===
/** Keyset pagination for ListXXX requests (package `list`): page-size policy,
    the continuation token, construction of list options from fresh criteria
    or from a token, the query contribution and next-token derivation. */
module List {
  import opened Wrappers
  import opened Errors
  import opened Text
  import opened Values
  import opened Query
  import opened Filters

  const DefaultPageSize: int := 20
  const MaxPageSize: int := 200

  /** Go's `int` on a 64-bit platform. */
  type GoInt = x: int | -0x8000_0000_0000_0000 <= x < 0x8000_0000_0000_0000

  /** `uint64(e)` of a Go int expression `e` computed without overflow in
      Dafny: both the wrap-around of the int addition and the conversion are
      reduction modulo 2^64. */
  function ToUint64(x: int): (r: nat)
    ensures r < 0x1_0000_0000_0000_0000
    ensures 0 <= x < 0x1_0000_0000_0000_0000 ==> r == x
  {
    x % 0x1_0000_0000_0000_0000
  }

  newtype byte = x: int | 0 <= x < 256

  /** A query position. On a first-page token both values are None; on a
      continuation token they are the sort and key values of the first row of
      the next page. */
  datatype Token = Token(
    sortByFieldName: string,
    sortByFieldValue: Option<Value>,
    keyFieldName: string,
    keyFieldValue: Option<Value>,
    isDesc: bool,
    filter: Option<Filter>)
  {
    /** The query resumes after an earlier page (both values are set). */
    predicate IsContinuation() {
      sortByFieldValue.Some? && keyFieldValue.Some?
    }
  }

  /** The library calls a token goes through on the wire: `encoding/json`
      and `encoding/base64`, each of which may reject its input. */
  datatype Codec = Codec(
    decodeBase64: string -> Option<seq<byte>>,
    unmarshalJson: seq<byte> -> Option<Token>,
    marshalJson: Token -> Option<seq<byte>>,
    encodeBase64: seq<byte> -> string)

  /** The options of one list query: a page size and a token. */
  datatype Options = Options(pageSize: GoInt, token: Token)

  /** What a listed model exposes: its primary key column, its default sort
      field and the map from API field names to model field names. */
  datatype Listable = Listable(
    primaryKeyColumnName: string,
    defaultSortField: string,
    apiToModelFieldMap: map<string, string>)

  /** `validatePageSize`: a negative size is an error, 0 means the default,
      sizes above the maximum are clamped. */
  function ValidatePageSize(pageSize: GoInt): (r: Result<GoInt, ErrorKind>)
    ensures r.Failure? <==> pageSize < 0
    ensures r.Failure? ==> r.error == InvalidInput
    ensures pageSize == 0 ==> r == Success(DefaultPageSize)
    ensures pageSize > MaxPageSize ==> r == Success(MaxPageSize)
    ensures 0 < pageSize <= MaxPageSize ==> r == Success(pageSize)
    ensures r.Success? ==> 1 <= r.value <= MaxPageSize
  {
    if pageSize < 0 then Failure(InvalidInput)
    else if pageSize == 0 then Success(DefaultPageSize)
    else if pageSize > MaxPageSize then Success(MaxPageSize)
    else Success(pageSize)
  }

  /** `token.unmarshal`: base64-decode, then JSON-decode. Either failure is
      reported as invalid input. */
  function Unmarshal(codec: Codec, pageToken: string): (r: Result<Token, ErrorKind>)
    ensures r.Failure? ==> r.error == InvalidInput
    ensures r.Success? <==>
      codec.decodeBase64(pageToken).Some? && codec.unmarshalJson(codec.decodeBase64(pageToken).value).Some?
    ensures r.Success? ==> Some(r.value) == codec.unmarshalJson(codec.decodeBase64(pageToken).value)
  {
    match codec.decodeBase64(pageToken)
    case None => Failure(InvalidInput)
    case Some(b) =>
      match codec.unmarshalJson(b)
      case None => Failure(InvalidInput)
      case Some(t) => Success(t)
  }

  /** `token.marshal`: JSON-encode, then base64-encode. A JSON failure is an
      internal error. */
  function Marshal(codec: Codec, t: Token): (r: Result<string, ErrorKind>)
    ensures r.Failure? <==> codec.marshalJson(t).None?
    ensures r.Failure? ==> r.error == Internal
    ensures r.Success? ==> r.value == codec.encodeBase64(codec.marshalJson(t).value)
  {
    match codec.marshalJson(t)
    case None => Failure(Internal)
    case Some(b) => Success(codec.encodeBase64(b))
  }

  /** `NewOptionsFromToken`: options for a later page. Sort field, direction,
      key and filter all come from the token; only the page size is the
      caller's. */
  function NewOptionsFromToken(codec: Codec, nextPageToken: string, pageSize: GoInt): (r: Result<Options, ErrorKind>)
    ensures nextPageToken == "" ==> r == Failure(Plain)
    ensures nextPageToken != "" && pageSize < 0 ==> r == Failure(InvalidInput)
    ensures r.Success? <==> nextPageToken != "" && pageSize >= 0 && Unmarshal(codec, nextPageToken).Success?
    ensures r.Failure? ==> (r.error == Plain <==> nextPageToken == "")
    ensures r.Failure? ==> r.error == Plain || r.error == InvalidInput
    ensures r.Success? ==> r.value.pageSize == ValidatePageSize(pageSize).value
    ensures r.Success? ==> 1 <= r.value.pageSize <= MaxPageSize
    ensures r.Success? ==> r.value.token == Unmarshal(codec, nextPageToken).value
  {
    if nextPageToken == "" then Failure(Plain)
    else
      var size :- ValidatePageSize(pageSize);
      var t :- Unmarshal(codec, nextPageToken);
      Success(Options(size, t))
  }

  /** The words of a sort specification: lower-cased, split on white space. */
  function SortWords(sortBy: string): (ws: seq<string>)
    ensures forall i :: 0 <= i < |ws| ==> IsWord(ws[i])
    ensures |ws| == |Fields(sortBy)|
    ensures forall i :: 0 <= i < |ws| ==> ws[i] == ToLower(Fields(sortBy)[i])
  {
    FieldsOfLower(sortBy);
    Fields(ToLower(sortBy))
  }

  /** "field", "field asc" or "field desc" (or nothing at all). */
  function ValidSortFormat(words: seq<string>): (ok: bool)
    ensures ok <==> |words| <= 1 || (|words| == 2 && (words[1] == "asc" || words[1] == "desc"))
  {
    !(|words| > 2 || (|words| == 2 && words[1] != "desc" && words[1] != "asc"))
  }

  /** Compiles the optional filter; a compilation error propagates. */
  function CompileFilter(filterProto: Option<FilterProto>, fieldMap: map<string, string>, compile: Compiler)
    : (r: Result<Option<Filter>, ErrorKind>)
    ensures filterProto.None? ==> r == Success(None)
    ensures filterProto.Some? && compile(filterProto.value, fieldMap).Failure? ==>
      r == Failure(compile(filterProto.value, fieldMap).error)
    ensures filterProto.Some? && compile(filterProto.value, fieldMap).Success? ==>
      r == Success(Some(compile(filterProto.value, fieldMap).value))
  {
    match filterProto
    case None => Success(None)
    case Some(p) =>
      var f :- compile(p, fieldMap);
      Success(Some(f))
  }

  /** `NewOptions`: options for a first page, from a page size, a sort
      specification and an optional filter. */
  function NewOptions(listable: Listable, pageSize: GoInt, sortBy: string, filterProto: Option<FilterProto>, compile: Compiler)
    : (r: Result<Options, ErrorKind>)
    ensures pageSize < 0 ==> r == Failure(InvalidInput)
    ensures pageSize >= 0 && !ValidSortFormat(SortWords(sortBy)) ==> r == Failure(InvalidInput)
    ensures r.Success? <==>
      && pageSize >= 0
      && ValidSortFormat(SortWords(sortBy))
      && (|SortWords(sortBy)| > 0 ==> SortWords(sortBy)[0] in listable.apiToModelFieldMap)
      && (filterProto.Some? ==> compile(filterProto.value, listable.apiToModelFieldMap).Success?)
    ensures r.Failure? && r.error != InvalidInput ==>
      filterProto.Some? && compile(filterProto.value, listable.apiToModelFieldMap) == Failure(r.error)
    ensures
      && pageSize >= 0
      && ValidSortFormat(SortWords(sortBy))
      && (|SortWords(sortBy)| > 0 ==> SortWords(sortBy)[0] in listable.apiToModelFieldMap)
      && filterProto.Some? && compile(filterProto.value, listable.apiToModelFieldMap).Failure?
      ==> r == Failure(compile(filterProto.value, listable.apiToModelFieldMap).error)
    ensures r.Success? ==>
      var words := SortWords(sortBy);
      var t := r.value.token;
      && r.value.pageSize == ValidatePageSize(pageSize).value
      && t.sortByFieldValue.None? && t.keyFieldValue.None?
      && t.keyFieldName == listable.primaryKeyColumnName
      && (|words| == 0 ==> t.sortByFieldName == listable.defaultSortField)
      && (|words| > 0 ==> t.sortByFieldName == listable.apiToModelFieldMap[words[0]])
      && (t.isDesc <==> |words| == 2 && words[1] == "desc")
      && (t.filter.Some? <==> filterProto.Some?)
      && (t.filter.Some? ==> compile(filterProto.value, listable.apiToModelFieldMap) == Success(t.filter.value))
  {
    var size :- ValidatePageSize(pageSize);
    var words := SortWords(sortBy);
    if !ValidSortFormat(words) then Failure(InvalidInput)
    else if |words| > 0 && words[0] !in listable.apiToModelFieldMap then Failure(InvalidInput)
    else
      var sortField := if |words| > 0 then listable.apiToModelFieldMap[words[0]] else listable.defaultSortField;
      var isDesc := |words| == 2 && words[1] == "desc";
      var filter :- CompileFilter(filterProto, listable.apiToModelFieldMap, compile);
      Success(Options(size, Token(sortField, None, listable.primaryKeyColumnName, None, isDesc, filter)))
  }

  /** The ORDER BY direction of a token. */
  function OrderOf(t: Token): (d: Direction)
    ensures d == Desc <==> t.isDesc
  {
    if t.isDesc then Desc else Asc
  }

  /** The WHERE clause that resumes a continuation query at the token's
      position: past the sort value, or at it with the key not before the
      key value. */
  function CursorPredicate(t: Token): (p: Pred)
    requires t.IsContinuation()
    ensures forall row :: t.sortByFieldName !in row ==> !Holds(p, row)
    ensures forall row ::
      && t.sortByFieldName in row && row[t.sortByFieldName] == t.sortByFieldValue.value
      && t.keyFieldName in row && row[t.keyFieldName] == t.keyFieldValue.value
      ==> Holds(p, row)
  {
    var s := t.sortByFieldName;
    var v := t.sortByFieldValue.value;
    var k := t.keyFieldName;
    var kv := t.keyFieldValue.value;
    var p := if t.isDesc then Or(Lt(s, v), And(Eq(s, v), LtOrEq(k, kv)))
             else Or(Gt(s, v), And(Eq(s, v), GtOrEq(k, kv)));
    assert forall row :: Holds(p, row) <==> Holds(p.left, row) || (Holds(p.right.left, row) && Holds(p.right.right, row));
    p
  }

  /** `Options.AddToSelect`: the cursor predicate (continuations only), the
      two ORDER BY clauses, a limit one past the page size, then the filter. */
  function AddToSelect(o: Options, q: Select): (r: Select)
    ensures r.orders == q.orders + [Ordering(o.token.sortByFieldName, OrderOf(o.token)), Ordering(o.token.keyFieldName, OrderOf(o.token))]
    ensures r.limit == Some(ToUint64(o.pageSize + 1))
    ensures 0 <= o.pageSize <= MaxPageSize ==> r.limit == Some(o.pageSize + 1)
    ensures r.filtered <==> q.filtered || o.token.filter.Some?
    ensures !o.token.IsContinuation() && o.token.filter.None? ==> r.wheres == q.wheres
    ensures o.token.IsContinuation() ==> |r.wheres| > |q.wheres| && r.wheres[|q.wheres|] == CursorPredicate(o.token)
    ensures r.wheres == q.wheres
      + (if o.token.IsContinuation() then [CursorPredicate(o.token)] else [])
      + (if o.token.filter.Some? then o.token.filter.value.predicates else [])
  {
    var q1 := if o.token.IsContinuation() then Where(q, CursorPredicate(o.token)) else q;
    var order := OrderOf(o.token);
    var q2 := OrderBy(OrderBy(q1, Ordering(o.token.sortByFieldName, order)), Ordering(o.token.keyFieldName, order));
    var q3 := Limit(q2, ToUint64(o.pageSize + 1));
    if o.token.filter.Some? then Filters.AddToSelect(o.token.filter.value, q3) else q3
  }

  /** `nextPageToken` as written: a continuation token positioned at
      `record`, which becomes the first row of the next page. Fails when the
      record lacks the sort field or the primary key. The filter is not
      carried over. */
  function NextToken(o: Options, listable: Listable, record: Row): (r: Result<Token, ErrorKind>)
    ensures r.Success? <==> o.token.sortByFieldName in record && listable.primaryKeyColumnName in record
    ensures r.Failure? ==> r.error == Plain
    ensures r.Success? ==>
      && r.value.IsContinuation()
      && r.value.sortByFieldName == o.token.sortByFieldName
      && r.value.isDesc == o.token.isDesc
      && r.value.keyFieldName == listable.primaryKeyColumnName
      && r.value.sortByFieldValue == Some(record[o.token.sortByFieldName])
      && r.value.keyFieldValue == Some(record[listable.primaryKeyColumnName])
      && r.value.filter.None?
  {
    if o.token.sortByFieldName !in record then Failure(Plain)
    else if listable.primaryKeyColumnName !in record then Failure(Plain)
    else Success(Token(
      o.token.sortByFieldName, Some(record[o.token.sortByFieldName]),
      listable.primaryKeyColumnName, Some(record[listable.primaryKeyColumnName]),
      o.token.isDesc, None))
  }

  /** `nextPageToken` with the filter of `o` carried over, so that the next
      page is drawn from the same filtered rows. */
  function NextTokenKeepingFilter(o: Options, listable: Listable, record: Row): (r: Result<Token, ErrorKind>)
    ensures r.Success? <==> o.token.sortByFieldName in record && listable.primaryKeyColumnName in record
    ensures r.Failure? ==> r.error == Plain
    ensures r.Success? ==>
      && r.value.IsContinuation()
      && r.value.sortByFieldName == o.token.sortByFieldName
      && r.value.isDesc == o.token.isDesc
      && r.value.keyFieldName == listable.primaryKeyColumnName
      && r.value.sortByFieldValue == Some(record[o.token.sortByFieldName])
      && r.value.keyFieldValue == Some(record[listable.primaryKeyColumnName])
      && r.value.filter == o.token.filter
  {
    var t :- NextToken(o, listable, record);
    Success(t.(filter := o.token.filter))
  }

  /** `NextPageToken` as written: derive the token and marshal it. */
  function NextPageToken(codec: Codec, o: Options, listable: Listable, record: Row): (r: Result<string, ErrorKind>)
    ensures r.Failure? ==>
      (r.error == Plain <==> o.token.sortByFieldName !in record || listable.primaryKeyColumnName !in record)
    ensures r.Failure? ==> r.error == Plain || r.error == Internal
    ensures r.Success? ==> NextToken(o, listable, record).Success?
    ensures NextToken(o, listable, record).Success? ==> r == Marshal(codec, NextToken(o, listable, record).value)
  {
    var t :- NextToken(o, listable, record);
    Marshal(codec, t)
  }

  /** `NextPageToken` over the corrected derivation that keeps the filter. */
  function NextPageTokenKeepingFilter(codec: Codec, o: Options, listable: Listable, record: Row): (r: Result<string, ErrorKind>)
    ensures r.Failure? ==>
      (r.error == Plain <==> o.token.sortByFieldName !in record || listable.primaryKeyColumnName !in record)
    ensures r.Failure? ==> r.error == Plain || r.error == Internal
    ensures r.Success? ==> NextTokenKeepingFilter(o, listable, record).Success?
    ensures NextTokenKeepingFilter(o, listable, record).Success? ==> r == Marshal(codec, NextTokenKeepingFilter(o, listable, record).value)
  {
    var t :- NextTokenKeepingFilter(o, listable, record);
    Marshal(codec, t)
  }
}

=== FILE: list_properties.dfy ===
/** Properties relating the operations of `List` to each other and to
    independent reference definitions: the lexicographic order the cursor
    predicate implements, the ORDER BY the query carries, the sort
    specification grammar and the token round trip. */
module ListProperties {
  import opened Wrappers
  import opened Errors
  import opened Text
  import opened Values
  import opened Query
  import Filters
  import opened List

  /** Reference meaning of a continuation token: `row` lies at or after the
      token's position in the token's direction, comparing (sort value, key
      value) pairs lexicographically. */
  predicate AtOrAfter(t: Token, row: Row)
    requires t.IsContinuation()
    requires t.sortByFieldName in row && t.keyFieldName in row
  {
    var here := (row[t.sortByFieldName], row[t.keyFieldName]);
    var cursor := (t.sortByFieldValue.value, t.keyFieldValue.value);
    if t.isDesc then !LexLess(cursor, here) else !LexLess(here, cursor)
  }

  /** The row satisfies every predicate of the optional filter. */
  predicate FilterAdmits(f: Option<Filters.Filter>, row: Row) {
    f.None? || forall i :: 0 <= i < |f.value.predicates| ==> Holds(f.value.predicates[i], row)
  }

  /** The wire round trip a token needs in order to come back unchanged:
      JSON encoding succeeds, base64 yields a non-empty string that decodes
      back, and JSON decoding restores the token. */
  predicate Transports(codec: Codec, t: Token) {
    && codec.marshalJson(t).Some?
    && var b := codec.marshalJson(t).value;
    && codec.encodeBase64(b) != ""
    && codec.decodeBase64(codec.encodeBase64(b)) == Some(b)
    && codec.unmarshalJson(b) == Some(t)
  }

  // ---------------------------------------------------------------------
  // Page size

  /** Normalising a normalised page size changes nothing. */
  lemma ValidatePageSizeIdempotent(pageSize: GoInt)
    requires pageSize >= 0
    ensures ValidatePageSize(ValidatePageSize(pageSize).value) == ValidatePageSize(pageSize)
  {
  }

  // ---------------------------------------------------------------------
  // Cursor predicate and ordering

  /** The OR/AND cursor predicate is exactly lexicographic comparison on
      (sort value, key value): ascending it admits the rows at or after the
      cursor, descending the rows at or before it. */
  lemma CursorPredicateIsLexOrder(t: Token, row: Row)
    requires t.IsContinuation()
    requires t.sortByFieldName in row && t.keyFieldName in row
    ensures Holds(CursorPredicate(t), row) <==> AtOrAfter(t, row)
  {
    var s, k := t.sortByFieldName, t.keyFieldName;
    var x, y := row[s], row[k];
    var v, kv := t.sortByFieldValue.value, t.keyFieldValue.value;
    LessCompare(x, v);
    LessCompare(y, kv);
    var p := CursorPredicate(t);
    assert Holds(p.right.left, row) <==> x == v;
    if t.isDesc {
      assert Holds(p.left, row) <==> Less(x, v);
      assert Holds(p.right.right, row) <==> Less(y, kv) || y == kv;
    } else {
      assert Holds(p.left, row) <==> Less(v, x);
      assert Holds(p.right.right, row) <==> Less(kv, y) || y == kv;
    }
  }

  /** The two ORDER BY clauses order rows lexicographically by (sort value,
      key value), reversed when descending. */
  lemma OrderingIsLexOrder(s: string, k: string, d: Direction, a: Row, b: Row)
    requires s in a && k in a && s in b && k in b
    ensures Precedes([Ordering(s, d), Ordering(k, d)], a, b) <==>
      if d == Asc then LexLess((a[s], a[k]), (b[s], b[k])) else LexLess((b[s], b[k]), (a[s], a[k]))
  {
    var orders := [Ordering(s, d), Ordering(k, d)];
    assert orders[1..] == [Ordering(k, d)];
    assert !Precedes([], a, b);
    assert Precedes([Ordering(k, d)], a, b) <==> Before(d, a[k], b[k]) by {
      assert [Ordering(k, d)][1..] == [];
    }
  }

  /** Keys tie-break every pair of rows: two rows with different keys are
      ordered one way round and not the other. */
  lemma OrderingIsTotalOnKeys(s: string, k: string, d: Direction, a: Row, b: Row)
    requires s in a && k in a && s in b && k in b
    requires a[k] != b[k]
    ensures Precedes([Ordering(s, d), Ordering(k, d)], a, b) != Precedes([Ordering(s, d), Ordering(k, d)], b, a)
  {
    OrderingIsLexOrder(s, k, d, a, b);
    OrderingIsLexOrder(s, k, d, b, a);
    LessCompare(a[s], b[s]);
    LessCompare(a[k], b[k]);
  }

  /** A continuation positioned at `record` admits exactly the rows that the
      query's ORDER BY does not place before `record`. */
  lemma CursorResumesAtRecord(t: Token, record: Row, row: Row)
    requires t.IsContinuation()
    requires t.sortByFieldName in record && t.keyFieldName in record
    requires t.sortByFieldValue == Some(record[t.sortByFieldName])
    requires t.keyFieldValue == Some(record[t.keyFieldName])
    requires t.sortByFieldName in row && t.keyFieldName in row
    ensures Holds(CursorPredicate(t), row) <==>
      !Precedes([Ordering(t.sortByFieldName, OrderOf(t)), Ordering(t.keyFieldName, OrderOf(t))], row, record)
  {
    CursorPredicateIsLexOrder(t, row);
    OrderingIsLexOrder(t.sortByFieldName, t.keyFieldName, OrderOf(t), row, record);
  }

  /** The record a continuation is positioned at is itself admitted: the
      inclusive key comparison keeps the first row of the next page. */
  lemma CursorAdmitsRecord(t: Token, record: Row)
    requires t.IsContinuation()
    requires t.sortByFieldName in record && t.keyFieldName in record
    requires t.sortByFieldValue == Some(record[t.sortByFieldName])
    requires t.keyFieldValue == Some(record[t.keyFieldName])
    ensures Holds(CursorPredicate(t), record)
  {
    CursorPredicateIsLexOrder(t, record);
    LessIrreflexive(record[t.sortByFieldName]);
    LessIrreflexive(record[t.keyFieldName]);
  }

  /** All conjuncts of a concatenation hold iff those of both parts do. */
  lemma AdmitsAppend(q: Select, ps: seq<Pred>, row: Row)
    ensures Admits(q.(wheres := q.wheres + ps), row) <==>
      Admits(q, row) && forall i :: 0 <= i < |ps| ==> Holds(ps[i], row)
  {
    var w := q.wheres + ps;
    if Admits(q, row) && forall i :: 0 <= i < |ps| ==> Holds(ps[i], row) {
      forall i | 0 <= i < |w|
        ensures Holds(w[i], row)
      {
        if i >= |q.wheres| {
          assert w[i] == ps[i - |q.wheres|];
        }
      }
    }
    if Admits(q.(wheres := w), row) {
      forall i | 0 <= i < |ps|
        ensures Holds(ps[i], row)
      {
        assert w[|q.wheres| + i] == ps[i];
      }
      forall i | 0 <= i < |q.wheres|
        ensures Holds(q.wheres[i], row)
      {
        assert w[i] == q.wheres[i];
      }
    }
  }

  /** A row passes the query `AddToSelect` builds iff it passed the query
      before, lies at or after the cursor (continuations only) and satisfies
      the filter. */
  lemma AddToSelectAdmits(o: Options, q: Select, row: Row)
    requires o.token.IsContinuation() ==> o.token.sortByFieldName in row && o.token.keyFieldName in row
    ensures Admits(AddToSelect(o, q), row) <==>
      && Admits(q, row)
      && (o.token.IsContinuation() ==> AtOrAfter(o.token, row))
      && FilterAdmits(o.token.filter, row)
  {
    var r := AddToSelect(o, q);
    var cursor := if o.token.IsContinuation() then [CursorPredicate(o.token)] else [];
    var fps := if o.token.filter.Some? then o.token.filter.value.predicates else [];
    var q1 := q.(wheres := q.wheres + cursor);
    assert r.wheres == q1.wheres + fps;
    AdmitsAppend(q1, fps, row);
    AdmitsAppend(q, cursor, row);
    assert Admits(r, row) == Admits(q1.(wheres := q1.wheres + fps), row);
    if o.token.IsContinuation() {
      CursorPredicateIsLexOrder(o.token, row);
    }
  }

  // ---------------------------------------------------------------------
  // Construction

  /** A first-page query has no cursor predicate: options built from fresh
      criteria add at most the filter's predicates. */
  lemma FirstPageHasNoCursor(listable: Listable, pageSize: GoInt, sortBy: string,
                             filterProto: Option<Filters.FilterProto>, compile: Filters.Compiler, q: Select)
    requires NewOptions(listable, pageSize, sortBy, filterProto, compile).Success?
    ensures var o := NewOptions(listable, pageSize, sortBy, filterProto, compile).value;
      && !o.token.IsContinuation()
      && AddToSelect(o, q).wheres == q.wheres + (if o.token.filter.Some? then o.token.filter.value.predicates else [])
  {
  }

  /** Both constructors yield a normalised page size, so the query's limit
      is exactly one row past the requested page size after normalisation:
      the extra row is the lookahead. */
  lemma LookaheadLimit(listable: Listable, codec: Codec, pageSize: GoInt, sortBy: string, nextPageToken: string,
                       filterProto: Option<Filters.FilterProto>, compile: Filters.Compiler, q: Select)
    ensures NewOptions(listable, pageSize, sortBy, filterProto, compile).Success? ==>
      AddToSelect(NewOptions(listable, pageSize, sortBy, filterProto, compile).value, q).limit
        == Some(ValidatePageSize(pageSize).value + 1)
    ensures NewOptionsFromToken(codec, nextPageToken, pageSize).Success? ==>
      AddToSelect(NewOptionsFromToken(codec, nextPageToken, pageSize).value, q).limit
        == Some(ValidatePageSize(pageSize).value + 1)
  {
  }

  /** The sort specification is case-insensitive. */
  lemma SortSpecCaseInsensitive(listable: Listable, pageSize: GoInt, sortBy: string,
                                filterProto: Option<Filters.FilterProto>, compile: Filters.Compiler)
    ensures NewOptions(listable, pageSize, ToLower(sortBy), filterProto, compile)
         == NewOptions(listable, pageSize, sortBy, filterProto, compile)
  {
    LowerIdempotent(sortBy);
  }

  /** Two sort specifications that differ only in the case of ASCII letters
      give the same options or the same error. */
  lemma SortSpecIgnoresCase(listable: Listable, pageSize: GoInt, a: string, b: string,
                            filterProto: Option<Filters.FilterProto>, compile: Filters.Compiler)
    requires |a| == |b|
    requires forall i :: 0 <= i < |a| ==> SameIgnoringCase(a[i], b[i])
    ensures NewOptions(listable, pageSize, a, filterProto, compile)
         == NewOptions(listable, pageSize, b, filterProto, compile)
  {
    assert ToLower(a) == ToLower(b);
    SortSpecCaseInsensitive(listable, pageSize, a, filterProto, compile);
    SortSpecCaseInsensitive(listable, pageSize, b, filterProto, compile);
  }

  /** "f", "f asc" and "f desc" for a known lower-case API field `f` sort by
      the mapped model field, descending only for "desc", tie-broken by the
      primary key. */
  lemma SortSpecAccepted(listable: Listable, pageSize: GoInt, field: string, compile: Filters.Compiler)
    requires pageSize >= 0
    requires IsWord(field) && ToLower(field) == field
    requires field in listable.apiToModelFieldMap
    ensures var r := NewOptions(listable, pageSize, field, None, compile);
      && r.Success?
      && r.value.token.sortByFieldName == listable.apiToModelFieldMap[field]
      && r.value.token.keyFieldName == listable.primaryKeyColumnName
      && !r.value.token.isDesc
    ensures var r := NewOptions(listable, pageSize, field + " asc", None, compile);
      && r.Success?
      && r.value.token.sortByFieldName == listable.apiToModelFieldMap[field]
      && !r.value.token.isDesc
    ensures var r := NewOptions(listable, pageSize, field + " desc", None, compile);
      && r.Success?
      && r.value.token.sortByFieldName == listable.apiToModelFieldMap[field]
      && r.value.token.isDesc
  {
    assert IsWord("asc") && IsWord("desc");
    assert AllSpace("") && AllSpace(" ");
    FieldsOfInterleave([field], ["", ""]);
    assert Interleave([field], ["", ""]) == field;
    FieldsOfLower(field);
    assert SortWords(field) == [field];
    assert Interleave([field, "asc"], ["", " ", ""]) == field + " asc" by {
      assert Interleave([field, "asc"][1..], ["", " ", ""][1..]) == " asc";
    }
    assert Interleave([field, "desc"], ["", " ", ""]) == field + " desc" by {
      assert Interleave([field, "desc"][1..], ["", " ", ""][1..]) == " desc";
    }
    assert ToLower("asc") == "asc" && ToLower("desc") == "desc";
    SortSpecSpaced(listable, pageSize, field, "asc", ["", " ", ""], compile);
    SortSpecSpaced(listable, pageSize, field, "desc", ["", " ", ""], compile);
  }

  /** A two-word specification laid out with any white space and in any
      letter case: the lower-cased field is looked up, and the order is
      descending iff the lower-cased direction is "desc". */
  lemma SortSpecSpaced(listable: Listable, pageSize: GoInt, field: string, dir: string,
                       seps: seq<string>, compile: Filters.Compiler)
    requires pageSize >= 0
    requires IsWord(field) && IsWord(dir)
    requires ToLower(field) in listable.apiToModelFieldMap
    requires ToLower(dir) == "asc" || ToLower(dir) == "desc"
    requires |seps| == 3 && AllSpace(seps[0]) && AllSpace(seps[1]) && AllSpace(seps[2]) && |seps[1]| > 0
    ensures var r := NewOptions(listable, pageSize, Interleave([field, dir], seps), None, compile);
      && r.Success?
      && r.value.token.sortByFieldName == listable.apiToModelFieldMap[ToLower(field)]
      && (r.value.token.isDesc <==> ToLower(dir) == "desc")
  {
    var s := Interleave([field, dir], seps);
    FieldsOfInterleave([field, dir], seps);
    FieldsOfLower(s);
    assert SortWords(s) == [ToLower(field), ToLower(dir)];
  }

  /** An empty (or all-blank) specification sorts by the default field,
      ascending. */
  lemma SortSpecDefault(listable: Listable, pageSize: GoInt, sortBy: string, compile: Filters.Compiler)
    requires pageSize >= 0
    requires |Fields(sortBy)| == 0
    ensures var r := NewOptions(listable, pageSize, sortBy, None, compile);
      && r.Success?
      && r.value.token.sortByFieldName == listable.defaultSortField
      && !r.value.token.isDesc
  {
  }

  /** More than two words, or a second word other than asc/desc in any
      letter case, is invalid input. */
  lemma SortSpecRejected(listable: Listable, pageSize: GoInt, sortBy: string,
                         filterProto: Option<Filters.FilterProto>, compile: Filters.Compiler)
    requires pageSize >= 0
    requires || |Fields(sortBy)| > 2
             || (|Fields(sortBy)| == 2 && ToLower(Fields(sortBy)[1]) != "asc" && ToLower(Fields(sortBy)[1]) != "desc")
    ensures NewOptions(listable, pageSize, sortBy, filterProto, compile) == Failure(InvalidInput)
  {
  }

  /** A first word that is not an API field name (in any letter case) is
      invalid input. */
  lemma SortFieldUnknown(listable: Listable, pageSize: GoInt, sortBy: string,
                         filterProto: Option<Filters.FilterProto>, compile: Filters.Compiler)
    requires pageSize >= 0
    requires |Fields(sortBy)| > 0
    requires ToLower(Fields(sortBy)[0]) !in listable.apiToModelFieldMap
    ensures NewOptions(listable, pageSize, sortBy, filterProto, compile) == Failure(InvalidInput)
  {
  }

  // ---------------------------------------------------------------------
  // Tokens

  /** Under the wire round trip, marshalling then unmarshalling a token gives
      it back. */
  lemma MarshalRoundTrip(codec: Codec, t: Token)
    requires Transports(codec, t)
    ensures Marshal(codec, t).Success?
    ensures Marshal(codec, t).value != ""
    ensures Unmarshal(codec, Marshal(codec, t).value) == Success(t)
  {
  }

  /** End to end: the token derived from `record` (with the filter kept),
      once transported and turned back into options, yields a query ordered
      as before that admits exactly the filtered rows not placed before
      `record`; `record` itself is the first candidate. */
  lemma ResumeAtRecord(codec: Codec, o: Options, listable: Listable, record: Row, pageSize: GoInt, row: Row)
    requires o.token.sortByFieldName in record && listable.primaryKeyColumnName in record
    requires Transports(codec, NextTokenKeepingFilter(o, listable, record).value)
    requires pageSize >= 0
    requires o.token.sortByFieldName in row && listable.primaryKeyColumnName in row
    ensures NextPageTokenKeepingFilter(codec, o, listable, record).Success?
    ensures var o2 := NewOptionsFromToken(codec, NextPageTokenKeepingFilter(codec, o, listable, record).value, pageSize);
      && o2.Success?
      && o2.value.token.filter == o.token.filter
      && o2.value.token.isDesc == o.token.isDesc
      && var q := AddToSelect(o2.value, Empty);
      && q.orders == [Ordering(o.token.sortByFieldName, OrderOf(o.token)), Ordering(listable.primaryKeyColumnName, OrderOf(o.token))]
      && (Admits(q, row) <==> !Precedes(q.orders, row, record) && FilterAdmits(o.token.filter, row))
      && (Admits(q, record) <==> FilterAdmits(o.token.filter, record))
  {
    var t := NextTokenKeepingFilter(o, listable, record).value;
    MarshalRoundTrip(codec, t);
    var o2 := NewOptionsFromToken(codec, NextPageTokenKeepingFilter(codec, o, listable, record).value, pageSize);
    assert o2.value.token == t;
    AddToSelectAdmits(o2.value, Empty, row);
    AddToSelectAdmits(o2.value, Empty, record);
    CursorPredicateIsLexOrder(t, row);
    CursorResumesAtRecord(t, record, row);
    CursorAdmitsRecord(t, record);
    CursorPredicateIsLexOrder(t, record);
  }

  /** As written, the derived token drops the filter: with a filter on
      "Name" = "a", the continuation query admits a row the first-page query
      rejected. */
  lemma NextTokenDropsFilter()
    ensures
      var f := Filters.Filter([Eq("Name", StrV("a"))]);
      var o := Options(10, Token("Name", None, "UUID", None, false, Some(f)));
      var listable := Listable("UUID", "Name", map["name" := "Name"]);
      var record := map["Name" := StrV("a"), "UUID" := IntV(1)];
      var row := map["Name" := StrV("b"), "UUID" := IntV(2)];
      var next := NextToken(o, listable, record);
      && next.Success?
      && next.value.filter.None?
      && !Admits(AddToSelect(o, Empty), row)
      && Admits(AddToSelect(Options(o.pageSize, next.value), Empty), row)
  {
    var f := Filters.Filter([Eq("Name", StrV("a"))]);
    var o := Options(10, Token("Name", None, "UUID", None, false, Some(f)));
    var listable := Listable("UUID", "Name", map["name" := "Name"]);
    var record := map["Name" := StrV("a"), "UUID" := IntV(1)];
    var row := map["Name" := StrV("b"), "UUID" := IntV(2)];
    var next := NextToken(o, listable, record);
    assert StrLess("a", "b");
    AddToSelectAdmits(o, Empty, row);
    AddToSelectAdmits(Options(o.pageSize, next.value), Empty, row);
    assert !Holds(f.predicates[0], row);
  }
}

=== FILE: query.dfy ===
/** An abstract picture of the squirrel SELECT builder: the WHERE predicates,
    ORDER BY clauses and LIMIT added to it, and whether a filter was applied.
    Rendering to SQL is not modelled; predicates are given a meaning over rows
    instead. */
module Query {
  import opened Wrappers
  import opened Values

  /** A row of the listed table: column name to value. */
  type Row = map<string, Value>

  /** The squirrel predicate forms list.go uses (`sq.Eq`, `sq.Lt`, `sq.LtOrEq`,
      `sq.Gt`, `sq.GtOrEq`, `sq.And`, `sq.Or`), each on one column. */
  datatype Pred =
    | Eq(column: string, value: Value)
    | Lt(column: string, value: Value)
    | LtOrEq(column: string, value: Value)
    | Gt(column: string, value: Value)
    | GtOrEq(column: string, value: Value)
    | And(left: Pred, right: Pred)
    | Or(left: Pred, right: Pred)

  /** Whether `row` satisfies `p`. A comparison on a column the row lacks is
      not satisfied, as a comparison with SQL NULL. */
  predicate Holds(p: Pred, row: Row) {
    match p
    case Eq(c, v) => c in row && row[c] == v
    case Lt(c, v) => c in row && Less(row[c], v)
    case LtOrEq(c, v) => c in row && (Less(row[c], v) || row[c] == v)
    case Gt(c, v) => c in row && Less(v, row[c])
    case GtOrEq(c, v) => c in row && (Less(v, row[c]) || row[c] == v)
    case And(l, r) => Holds(l, row) && Holds(r, row)
    case Or(l, r) => Holds(l, row) || Holds(r, row)
  }

  datatype Direction = Asc | Desc

  /** One `ORDER BY <column> <direction>` clause. */
  datatype Ordering = Ordering(column: string, direction: Direction)

  /** The builder state. `limit` is None until `Limit` is called. */
  datatype Select = Select(wheres: seq<Pred>, orders: seq<Ordering>, limit: Option<nat>, filtered: bool)

  /** A builder with nothing added yet. */
  const Empty: Select := Select([], [], None, false)

  /** `SelectBuilder.Where`: adds one conjunct. */
  function Where(q: Select, p: Pred): (r: Select)
    ensures r.wheres == q.wheres + [p]
    ensures r.orders == q.orders && r.limit == q.limit && r.filtered == q.filtered
  {
    q.(wheres := q.wheres + [p])
  }

  /** `SelectBuilder.OrderBy`: appends one ordering clause. */
  function OrderBy(q: Select, o: Ordering): (r: Select)
    ensures r.orders == q.orders + [o]
    ensures r.wheres == q.wheres && r.limit == q.limit && r.filtered == q.filtered
  {
    q.(orders := q.orders + [o])
  }

  /** `SelectBuilder.Limit`: replaces the row limit. */
  function Limit(q: Select, n: nat): (r: Select)
    ensures r.limit == Some(n)
    ensures r.wheres == q.wheres && r.orders == q.orders && r.filtered == q.filtered
  {
    q.(limit := Some(n))
  }

  /** A row passes the query when it satisfies every WHERE conjunct. */
  predicate Admits(q: Select, row: Row) {
    forall i :: 0 <= i < |q.wheres| ==> Holds(q.wheres[i], row)
  }

  /** `v` comes strictly before `w` in direction `d`. */
  predicate Before(d: Direction, v: Value, w: Value) {
    if d == Asc then Less(v, w) else Less(w, v)
  }

  /** Row `a` is returned strictly before row `b` under the ORDER BY clauses:
      the first clause that tells them apart decides. */
  predicate Precedes(orders: seq<Ordering>, a: Row, b: Row)
    decreases |orders|
  {
    && |orders| > 0
    && var c := orders[0].column;
    && c in a && c in b
    && (|| Before(orders[0].direction, a[c], b[c])
        || (a[c] == b[c] && Precedes(orders[1..], a, b)))
  }
}

/** The filter collaborator (package `filter`), known only at its interface:
    compiling a filter proto against a field map may fail; a compiled filter
    only adds predicates to a query. */
module Filters {
  import opened Wrappers
  import opened Errors
  import opened Query

  /** The API filter message; its contents are not interpreted here. */
  datatype FilterProto = FilterProto(text: string)

  /** A compiled filter: the predicates it contributes. */
  datatype Filter = Filter(predicates: seq<Pred>)

  /** `filter.NewWithKeyMap`, supplied by the caller. */
  type Compiler = (FilterProto, map<string, string>) -> Result<Filter, ErrorKind>

  /** `Filter.AddToSelect`: adds the filter's predicates and nothing else. */
  function AddToSelect(f: Filter, q: Select): (r: Select)
    ensures r.wheres == q.wheres + f.predicates
    ensures r.orders == q.orders && r.limit == q.limit && r.filtered
  {
    q.(wheres := q.wheres + f.predicates, filtered := true)
  }
}

=== FILE: text.dfy ===
/** The two string operations the sort specification goes through:
    Go's `strings.ToLower` and `strings.Fields`. */
module Text {

  /** Go's `unicode.IsSpace`: the ASCII white space characters, NEL, NBSP and
      the characters with the Unicode White_Space property. */
  predicate IsSpace(c: char) {
    var n := c as int;
    || n == 0x09 || n == 0x0A || n == 0x0B || n == 0x0C || n == 0x0D || n == 0x20
    || n == 0x85 || n == 0xA0 || n == 0x1680
    || (0x2000 <= n <= 0x200A)
    || n == 0x2028 || n == 0x2029 || n == 0x202F || n == 0x205F || n == 0x3000
  }

  /** A word as `strings.Fields` returns it: non-empty, no white space. */
  predicate IsWord(w: string) {
    |w| > 0 && forall i :: 0 <= i < |w| ==> !IsSpace(w[i])
  }

  /** `c` and `d` are the same character, or the same ASCII letter written
      in the two cases. */
  predicate SameIgnoringCase(c: char, d: char) {
    var a := 'a' as int - 'A' as int;
    || c == d
    || ('A' <= c <= 'Z' && d as int == c as int + a)
    || ('A' <= d <= 'Z' && c as int == d as int + a)
  }

  /** Lower-cases one character (ASCII letters only). */
  function LowerChar(c: char): (d: char)
    ensures IsSpace(d) <==> IsSpace(c)
    ensures !('A' <= d <= 'Z')
    ensures 'A' <= c <= 'Z' ==> d as int == c as int + ('a' as int - 'A' as int)
  {
    if 'A' <= c <= 'Z' then (c as int + 32) as char else c
  }

  /** `strings.ToLower`, restricted to the ASCII letters. */
  function ToLower(s: string): (r: string)
    ensures |r| == |s|
    ensures forall i :: 0 <= i < |r| ==> !('A' <= r[i] <= 'Z')
    ensures forall i :: 0 <= i < |s| && !('A' <= s[i] <= 'Z') ==> r[i] == s[i]
    ensures forall i :: 0 <= i < |s| ==> (IsSpace(r[i]) <==> IsSpace(s[i]))
    ensures forall i :: 0 <= i < |s| && 'A' <= s[i] <= 'Z' ==>
      r[i] as int == s[i] as int + ('a' as int - 'A' as int)
  {
    seq(|s|, i requires 0 <= i < |s| => LowerChar(s[i]))
  }

  /** Lower-cases every word of a list. */
  function LowerAll(ws: seq<string>): (r: seq<string>)
    ensures |r| == |ws|
  {
    seq(|ws|, i requires 0 <= i < |ws| => ToLower(ws[i]))
  }

  /** Length of the longest prefix of `s` holding no white space. */
  function NonSpacePrefix(s: string): (n: nat)
    ensures n <= |s|
    ensures forall i :: 0 <= i < n ==> !IsSpace(s[i])
    ensures n < |s| ==> IsSpace(s[n])
  {
    if |s| == 0 || IsSpace(s[0]) then 0 else 1 + NonSpacePrefix(s[1..])
  }

  /** Go's `strings.Fields`: the maximal runs of non-space characters of `s`,
      in order. */
  function Fields(s: string): (ws: seq<string>)
    ensures forall i :: 0 <= i < |ws| ==> IsWord(ws[i])
    decreases |s|
  {
    if |s| == 0 then []
    else if IsSpace(s[0]) then Fields(s[1..])
    else
      var n := NonSpacePrefix(s);
      [s[..n]] + Fields(s[n..])
  }

  /** A string made only of white space (possibly empty). */
  predicate AllSpace(s: string) {
    forall i :: 0 <= i < |s| ==> IsSpace(s[i])
  }

  /** The words laid out between separators: `seps[0] + ws[0] + seps[1] +
      ... + ws[n-1] + seps[n]`. */
  function Interleave(ws: seq<string>, seps: seq<string>): (s: string)
    requires |seps| == |ws| + 1
    decreases |ws|
  {
    if |ws| == 0 then seps[0] else seps[0] + ws[0] + Interleave(ws[1..], seps[1..])
  }

  /** The characters of `s` that are not white space. */
  function NonSpace(s: string): string
  {
    if |s| == 0 then ""
    else if IsSpace(s[0]) then NonSpace(s[1..])
    else [s[0]] + NonSpace(s[1..])
  }

  /** All words concatenated. */
  function Concat(ws: seq<string>): string
  {
    if |ws| == 0 then "" else ws[0] + Concat(ws[1..])
  }

  /** `NonSpacePrefix` is determined by its contract. */
  lemma NonSpacePrefixIs(s: string, n: nat)
    requires n <= |s|
    requires forall i :: 0 <= i < n ==> !IsSpace(s[i])
    requires n < |s| ==> IsSpace(s[n])
    ensures NonSpacePrefix(s) == n
  {
  }

  /** A word followed by white space (or nothing) is split off as the first field. */
  lemma FieldsAfterWord(w: string, rest: string)
    requires IsWord(w)
    requires |rest| == 0 || IsSpace(rest[0])
    ensures Fields(w + rest) == [w] + Fields(rest)
  {
    var s := w + rest;
    NonSpacePrefixIs(s, |w|);
    assert s[..|w|] == w;
    assert s[|w|..] == rest;
  }

  /** Leading white space does not contribute a field. */
  lemma FieldsAfterSpace(c: char, rest: string)
    requires IsSpace(c)
    ensures Fields([c] + rest) == Fields(rest)
  {
    assert ([c] + rest)[1..] == rest;
  }

  /** Any run of leading white space contributes no field. */
  lemma {:induction false} FieldsAfterSpaces(sp: string, rest: string)
    requires AllSpace(sp)
    ensures Fields(sp + rest) == Fields(rest)
    decreases |sp|
  {
    if |sp| > 0 {
      FieldsAfterSpace(sp[0], sp[1..] + rest);
      assert sp + rest == [sp[0]] + (sp[1..] + rest);
      FieldsAfterSpaces(sp[1..], rest);
    } else {
      assert sp + rest == rest;
    }
  }

  /** Words separated by arbitrary non-empty runs of white space, with
      optional white space before and after, split back into exactly those
      words. */
  lemma {:induction false} FieldsOfInterleave(ws: seq<string>, seps: seq<string>)
    requires |seps| == |ws| + 1
    requires forall i :: 0 <= i < |ws| ==> IsWord(ws[i])
    requires forall j :: 0 <= j < |seps| ==> AllSpace(seps[j])
    requires forall j :: 0 < j < |ws| ==> |seps[j]| > 0
    ensures Fields(Interleave(ws, seps)) == ws
    decreases |ws|
  {
    if |ws| == 0 {
      FieldsAfterSpaces(seps[0], "");
      assert seps[0] + "" == seps[0];
    } else {
      var rest := Interleave(ws[1..], seps[1..]);
      assert |ws[1..]| == 0 ==> rest == seps[1];
      assert |ws[1..]| > 0 ==> rest == seps[1] + ws[1..][0] + Interleave(ws[1..][1..], seps[1..][1..]);
      assert |rest| == 0 || IsSpace(rest[0]);
      FieldsOfInterleave(ws[1..], seps[1..]);
      FieldsAfterSpaces(seps[0], ws[0] + rest);
      assert seps[0] + ws[0] + rest == seps[0] + (ws[0] + rest);
      FieldsAfterWord(ws[0], rest);
      assert ws == [ws[0]] + ws[1..];
    }
  }

  /** `Fields` loses exactly the white space: its words concatenated are the
      non-space characters of the input, in order. */
  lemma {:induction false} ConcatFields(s: string)
    ensures Concat(Fields(s)) == NonSpace(s)
    decreases |s|
  {
    if |s| == 0 {
    } else if IsSpace(s[0]) {
      ConcatFields(s[1..]);
    } else {
      var n := NonSpacePrefix(s);
      ConcatFields(s[n..]);
      NonSpaceOfWord(s, n);
      assert Fields(s) == [s[..n]] + Fields(s[n..]);
      assert ([s[..n]] + Fields(s[n..]))[1..] == Fields(s[n..]);
    }
  }

  /** Removing white space from a space-free prefix leaves the prefix. */
  lemma {:induction false} NonSpaceOfWord(s: string, n: nat)
    requires n <= |s|
    requires forall i :: 0 <= i < n ==> !IsSpace(s[i])
    ensures NonSpace(s) == s[..n] + NonSpace(s[n..])
    decreases n
  {
    if n > 0 {
      NonSpaceOfWord(s[1..], n - 1);
      assert s[1..][n - 1..] == s[n..];
      assert s[..n] == [s[0]] + s[1..][..n - 1];
    }
  }

  /** Lower-casing commutes with taking sub-sequences. */
  lemma LowerSlices(s: string, n: nat)
    requires n <= |s|
    ensures ToLower(s)[..n] == ToLower(s[..n])
    ensures ToLower(s)[n..] == ToLower(s[n..])
  {
  }

  /** Lower-casing moves no word boundary: the fields of the lower-cased
      string are the lower-cased fields. */
  lemma {:induction false} FieldsOfLower(s: string)
    ensures Fields(ToLower(s)) == LowerAll(Fields(s))
    decreases |s|
  {
    var t := ToLower(s);
    if |s| == 0 {
    } else if IsSpace(s[0]) {
      LowerSlices(s, 1);
      FieldsOfLower(s[1..]);
    } else {
      var n := NonSpacePrefix(s);
      NonSpacePrefixIs(t, n);
      LowerSlices(s, n);
      FieldsOfLower(s[n..]);
      var rest := Fields(s[n..]);
      assert Fields(s) == [s[..n]] + rest;
      assert Fields(t) == [ToLower(s[..n])] + LowerAll(rest);
      assert LowerAll([s[..n]] + rest) == [ToLower(s[..n])] + LowerAll(rest);
    }
  }

  /** Lower-casing is idempotent. */
  lemma LowerIdempotent(s: string)
    ensures ToLower(ToLower(s)) == ToLower(s)
  {
  }
}

=== FILE: values.dfy ===
/** The scalar values a sort or key column holds, and the order the store
    compares them by. */
module Values {

  /** A column value as carried in a page token. */
  datatype Value = IntV(i: int) | StrV(s: string) | BoolV(b: bool)

  /** Orders the kinds; only used when two values of different kinds meet,
      which never happens within one column. */
  function Rank(v: Value): nat {
    match v
    case BoolV(_) => 0
    case IntV(_) => 1
    case StrV(_) => 2
  }

  /** Strict lexicographic order on strings by code point. */
  predicate StrLess(a: string, b: string)
    decreases |a|
  {
    if |a| == 0 then |b| > 0
    else |b| > 0 && (a[0] < b[0] || (a[0] == b[0] && StrLess(a[1..], b[1..])))
  }

  /** The store's strict order on values: the natural order within a kind. */
  predicate Less(a: Value, b: Value) {
    match (a, b)
    case (IntV(x), IntV(y)) => x < y
    case (StrV(x), StrV(y)) => StrLess(x, y)
    case (BoolV(x), BoolV(y)) => !x && y
    case _ => Rank(a) < Rank(b)
  }

  /** Strict lexicographic order on (sort value, key value) pairs. */
  predicate LexLess(a: (Value, Value), b: (Value, Value)) {
    Less(a.0, b.0) || (a.0 == b.0 && Less(a.1, b.1))
  }

  lemma {:induction false} StrLessIrreflexive(a: string)
    ensures !StrLess(a, a)
    decreases |a|
  {
    if |a| > 0 {
      StrLessIrreflexive(a[1..]);
    }
  }

  lemma {:induction false} StrLessTransitive(a: string, b: string, c: string)
    requires StrLess(a, b) && StrLess(b, c)
    ensures StrLess(a, c)
    decreases |a|
  {
    if |a| > 0 && a[0] == b[0] && b[0] == c[0] {
      StrLessTransitive(a[1..], b[1..], c[1..]);
    }
  }

  lemma {:induction false} StrLessTrichotomy(a: string, b: string)
    ensures StrLess(a, b) || a == b || StrLess(b, a)
    decreases |a|
  {
    if |a| > 0 && |b| > 0 && a[0] == b[0] {
      StrLessTrichotomy(a[1..], b[1..]);
      if a[1..] == b[1..] {
        assert a == [a[0]] + a[1..] && b == [b[0]] + b[1..];
      }
    }
  }

  lemma LessIrreflexive(a: Value)
    ensures !Less(a, a)
  {
    if a.StrV? {
      StrLessIrreflexive(a.s);
    }
  }

  lemma LessTransitive(a: Value, b: Value, c: Value)
    requires Less(a, b) && Less(b, c)
    ensures Less(a, c)
  {
    if a.StrV? && b.StrV? && c.StrV? {
      StrLessTransitive(a.s, b.s, c.s);
    }
  }

  lemma LessAsymmetric(a: Value, b: Value)
    requires Less(a, b)
    ensures !Less(b, a)
  {
    if Less(b, a) {
      LessTransitive(a, b, a);
      LessIrreflexive(a);
    }
  }

  /** Any two values are equal or ordered one way: the store's order is total. */
  lemma LessTrichotomy(a: Value, b: Value)
    ensures Less(a, b) || a == b || Less(b, a)
  {
    if a.StrV? && b.StrV? {
      StrLessTrichotomy(a.s, b.s);
    }
  }

  /** Exactly one of "before", "equal", "after" holds for two values. */
  lemma LessCompare(a: Value, b: Value)
    ensures Less(a, b) <==> (a != b && !Less(b, a))
  {
    LessTrichotomy(a, b);
    LessIrreflexive(a);
    if Less(a, b) {
      LessAsymmetric(a, b);
    }
  }
}

=== FILE: wrappers.dfy ===
/** Failure-compatible wrappers used throughout the model: an optional value
    and a result that is either a value or an error. Both work with `:-`. */
module Wrappers {

  /** A value that may be absent; stands for Go's nil interface values. */
  datatype Option<+T> = None | Some(value: T)

  /** Either a computed value or an error, as Go's `(T, error)` pairs. */
  datatype Result<+T, +E> = Success(value: T) | Failure(error: E) {

    predicate IsFailure() {
      Failure?
    }

    function PropagateFailure<U>(): Result<U, E>
      requires Failure?
    {
      Failure(error)
    }

    function Extract(): T
      requires Success?
    {
      value
    }
  }
}

/** The error classification of the apiserver's `util` package. Only the
    kind of an error is modelled, never its message text. */
module Errors {

  datatype ErrorKind =
    | InvalidInput  // util.NewInvalidInputError*: caused by the caller's request
    | Internal      // util.NewInternalServerError: a defect on the server side
    | Plain         // fmt.Errorf: an error without classification
}
